=== FILE: README.md ===
# Recipe search — a Dafny model of the meal finder's data rules

The meal finder is an Android screen: the user types a recipe name, presses search, and the
app asks an online meal database for matching meals and shows one card per meal (picture,
title, category, cuisine, shortened instructions, ingredient list). All of its logic lives
in UI callbacks in `MainActivity.kt`. This project lifts those rules out as pure functions
over immutable data and proves what they guarantee:

- **Query gate.** The typed text is trimmed with Kotlin's `trim()`. A search starts only when
  something is left (`Search.Gate`, built on `Text.Trim`).
- **Response classification.** Every search ends in exactly one of four outcomes: show
  recipes, no results, failed to fetch, or network error (`Search.Classify`).
- **Instruction truncation.** Instructions longer than 200 characters keep their first 200
  characters, followed by `"..."` (`Projector.Truncate`).
- **Ingredient pruning.** The twenty positional `strIngredientK`/`strMeasureK` fields are
  rebuilt as an ordered sequence of pairs (`Recipes.Slots`). A pair is kept when both halves
  pass `!isNullOrEmpty()` (`Projector.Prune`, `Projector.FilterValid`).
- **Rendering order.** There is one card per recipe, in list order (`Search.Render`,
  `Search.DisplayRecipes`).

Modules, one per concern:

| file | module | contents |
|---|---|---|
| `nullable.dfy` | `Nullable` | `Option` for Kotlin's nullable types, `IsNullOrEmpty` |
| `text.dfy` | `Text` | JVM whitespace, `TrimStart`, `TrimEnd`, `Trim` |
| `recipes.dfy` | `Recipes` | `Recipe` (all 47 fields), `RecipeResponse`, `Slot`, `Slots`, `WithSlots` |
| `projector.dfy` | `Projector` | `Truncate`, `Keep`, `Prune`, `FilterValid`, `DisplayRecipe`, `Project` |
| `search.dfy` | `Search` | `Gate`, `Response`, `Outcome`, `Classify`, `Render`, `DisplayRecipes`, `Submit` |

The network is a parameter. `Search.Submit` takes the server as a function from query to
`Response`. `Response` is either an HTTP response (a status code plus a body that may be
absent and is already parsed) or a transport failure with its message, which may be null.
A status counts as successful when it lies in 200..299, which is the HTTP client's own rule.

Characters are Dafny `char`s, one per UTF-16 unit that Kotlin's `length` and `substring`
count. Whitespace for `trim()` is the JVM's `Char.isWhitespace()`, written out as an
explicit character set in `Text.IsWhitespace`.

`Outcome.FetchFailed` carries nothing: the failed-fetch toast (`MainActivity.kt:67`) shows
no status code.

## Model

| member | source | states |
|---|---|---|
| Text.WhitespaceBounds | RecipeApp/app/src/main/java/vcmsa/projects/recipeapp/MainActivity.kt:35 | the whitespace set that `trim()` uses holds the ASCII blanks and the non-breaking space, no ASCII letter or digit, and nothing above U+3000 |
| Text.TrimStart | RecipeApp/app/src/main/java/vcmsa/projects/recipeapp/MainActivity.kt:35 | leading whitespace is dropped: the result is a suffix, everything cut was whitespace, and the result is empty or starts with a non-whitespace character |
| Text.TrimEnd | RecipeApp/app/src/main/java/vcmsa/projects/recipeapp/MainActivity.kt:35 | trailing whitespace is dropped: the result is a prefix, everything cut was whitespace, and the result is empty or ends with a non-whitespace character |
| Text.Trim | RecipeApp/app/src/main/java/vcmsa/projects/recipeapp/MainActivity.kt:35 | `trim()` returns a slice of the input with only whitespace outside it; it is empty exactly when the input is blank, and otherwise starts and ends with non-whitespace |
| Text.TrimIdempotent | RecipeApp/app/src/main/java/vcmsa/projects/recipeapp/MainActivity.kt:35 | trimming twice is the same as trimming once |
| Search.Gate | RecipeApp/app/src/main/java/vcmsa/projects/recipeapp/MainActivity.kt:34-41 | a search is started if and only if the input holds a non-whitespace character; the query sent is the trimmed, non-empty input with no surrounding whitespace |
| Search.BlankInputIsRejected | RecipeApp/app/src/main/java/vcmsa/projects/recipeapp/MainActivity.kt:35-40 | empty input, and input made only of spaces, tabs and newlines, never starts a search |
| Search.GateIdempotent | RecipeApp/app/src/main/java/vcmsa/projects/recipeapp/MainActivity.kt:35-37 | resubmitting the query a search was started with starts the same search |
| Search.ResponseConditionsPartition | RecipeApp/app/src/main/java/vcmsa/projects/recipeapp/MainActivity.kt:56-74 | the four response conditions (meals present, empty success, non-2xx status, transport failure) cover every response, and none overlap |
| Search.IsSuccessful | RecipeApp/app/src/main/java/vcmsa/projects/recipeapp/MainActivity.kt:59 | `isSuccessful` holds exactly of the status codes in 200..299 |
| Search.MealsOf | RecipeApp/app/src/main/java/vcmsa/projects/recipeapp/MainActivity.kt:60 | `body()?.meals` is present exactly when the body and its `meals` both are, and is then that list |
| Search.Classify | RecipeApp/app/src/main/java/vcmsa/projects/recipeapp/MainActivity.kt:55-75 | each outcome is reached exactly when its condition holds (both directions); recipes are shown only when non-empty and in server order; a transport failure keeps its message |
| Search.NullAndEmptyMealsAreNoResults | RecipeApp/app/src/main/java/vcmsa/projects/recipeapp/MainActivity.kt:59-65 | a successful response with a null body, with `meals` null, or with `meals` empty is "no results", not an error and not zero cards |
| Projector.Truncate | RecipeApp/app/src/main/java/vcmsa/projects/recipeapp/MainActivity.kt:103-107 | up to 200 characters pass unchanged; longer text becomes exactly 203 characters ending in `...`; the result is at most 203 long and starts with the first min(length, 200) characters |
| Projector.TruncateIdempotent | RecipeApp/app/src/main/java/vcmsa/projects/recipeapp/MainActivity.kt:103-107 | shortening already shortened instructions changes nothing |
| Recipes.Slots | RecipeApp/app/src/main/java/vcmsa/projects/recipeapp/MainActivity.kt:126-147 | the positional fields become a sequence of exactly twenty (ingredient, measure) pairs |
| Recipes.WithSlots | RecipeApp/app/src/main/java/vcmsa/projects/recipeapp/MainActivity.kt:196-243 | writing twenty pairs into a recipe leaves its identity, name, category, area, instructions, thumbnail and video fields untouched |
| Recipes.SlotsInFieldOrder | RecipeApp/app/src/main/java/vcmsa/projects/recipeapp/MainActivity.kt:126-147 | the pair sequence runs in field order: position k (from 1 to 20) holds ingredient k with measure k |
| Recipes.SlotsOfWithSlots | RecipeApp/app/src/main/java/vcmsa/projects/recipeapp/MainActivity.kt:204-243 | reading the pairs back after writing them gives what was written |
| Recipes.WithOwnSlots | RecipeApp/app/src/main/java/vcmsa/projects/recipeapp/MainActivity.kt:204-243 | writing back a recipe's own pairs gives the same recipe, so the pair sequence loses nothing of the forty fields |
| Nullable.IsNullOrEmpty | RecipeApp/app/src/main/java/vcmsa/projects/recipeapp/MainActivity.kt:151 | `isNullOrEmpty` holds exactly of null and of the empty string, so a blank string is not empty |
| Projector.Keep | RecipeApp/app/src/main/java/vcmsa/projects/recipeapp/MainActivity.kt:151 | a pair is kept exactly when both halves are non-null and have at least one character |
| Projector.Prune | RecipeApp/app/src/main/java/vcmsa/projects/recipeapp/MainActivity.kt:150-152 | the kept pairs form an order-preserving subsequence of the input; a pair appears exactly when it occurs in the input and both halves are non-null and non-empty, and as often as it occurs there |
| Projector.PruneCons | RecipeApp/app/src/main/java/vcmsa/projects/recipeapp/MainActivity.kt:150-152 | the first pair is kept or dropped on its own merits, and the rest is pruned independently |
| Projector.PruneAppend | RecipeApp/app/src/main/java/vcmsa/projects/recipeapp/MainActivity.kt:150-152 | pruning a concatenation is the concatenation of the pruned parts |
| Projector.PruneIdempotent | RecipeApp/app/src/main/java/vcmsa/projects/recipeapp/MainActivity.kt:126-152 | pruning an already pruned list leaves it unchanged |
| Projector.FilterValid | RecipeApp/app/src/main/java/vcmsa/projects/recipeapp/MainActivity.kt:150-152 | the in-order walk that appends each kept pair builds exactly the pruned list |
| Projector.PruneKeepsBlanksDropsHalfFilled | RecipeApp/app/src/main/java/vcmsa/projects/recipeapp/MainActivity.kt:150-152 | a `" "`/`" "` pair is kept; a name with a null or empty measure, and a measure with a null or empty name, are dropped |
| Projector.PruneNoneKept | RecipeApp/app/src/main/java/vcmsa/projects/recipeapp/MainActivity.kt:150-152 | a list with no kept pair prunes to nothing |
| Projector.PruneSingleKept | RecipeApp/app/src/main/java/vcmsa/projects/recipeapp/MainActivity.kt:150-152 | when exactly one position holds a kept pair, pruning yields that pair alone |
| Projector.ProjectKeepsOnlyFilledSlot | RecipeApp/app/src/main/java/vcmsa/projects/recipeapp/MainActivity.kt:126-152 | a recipe whose slot 3 names an ingredient with an empty measure, whose slot 5 is filled and whose other slots are not kept lists slot 5's pair alone |
| Projector.Project | RecipeApp/app/src/main/java/vcmsa/projects/recipeapp/MainActivity.kt:102-111 | a card keeps its recipe; its instructions are the original when at most 200 long and otherwise the first 200 characters followed by `...`, so at most 203; it lists at most twenty pairs, in slot order, exactly the recipe's kept pairs, each as often as it occurs |
| Search.Render | RecipeApp/app/src/main/java/vcmsa/projects/recipeapp/MainActivity.kt:81-119 | there is one card per meal, and card k is meal k projected |
| Search.RenderIsOneToOne | RecipeApp/app/src/main/java/vcmsa/projects/recipeapp/MainActivity.kt:81-119 | reading the recipes back off the cards gives the meal list itself: nothing reordered, dropped or duplicated |
| Search.DisplayRecipes | RecipeApp/app/src/main/java/vcmsa/projects/recipeapp/MainActivity.kt:78-120 | clearing the container and appending one card per meal in order leaves exactly the rendered cards, card k showing meal k |
| Search.Submit | RecipeApp/app/src/main/java/vcmsa/projects/recipeapp/MainActivity.kt:34-75 | a press is rejected exactly when the input is blank; otherwise the trimmed, non-empty query is sent and the server's answer classified |
| Search.CardsAfter | RecipeApp/app/src/main/java/vcmsa/projects/recipeapp/MainActivity.kt:34-75 | a rejected press leaves the previous cards showing, since only a started search clears the container (line 46); a search that shows recipes puts up one card per recipe, card k being recipe k projected; every other started search leaves no card |
| Search.PastaScenario | RecipeApp/app/src/main/java/vcmsa/projects/recipeapp/MainActivity.kt:34-119 | input `" pasta "` answered with two meals searches for `"pasta"` and shows both meals, as two cards in the server's order |

## Left out

- HTTP: the request (base URL, `search.php`, the `s` parameter) and the asynchronous callback machinery are not modelled. The server is a function parameter, called once per started search.
- JSON decoding: responses arrive already parsed. A JSON `null` in a field the record declares non-null (such as `strInstructions`) is not modelled. Every such field is a plain `string`.
- UI side effects are not modelled: the progress bar, toasts, the image loader, layout inflation, the card click listener (`MainActivity.kt:114-116`) and the detail dialog (`showRecipeDetails`). Outcomes and cards name what is shown, not how.
- The ingredient line text (a bullet, the measure, a space, then the ingredient) is not modelled. It is display formatting only.
- The "Category:" and "Cuisine:" card labels are not modelled. They are display formatting only.
- Concurrent searches are not modelled: the code starts each one independently and coordinates none.
- Projector.Truncate: counts one `char` per UTF-16 unit, but a Dafny `char` is a Unicode scalar value, so text with a character outside the Basic Multilingual Plane (an emoji, which Kotlin's `length` counts as two units) cannot be represented at all. For such text the 200-unit count is not modelled, and neither is a cut that splits a surrogate pair.
- `build.gradle.kts`: build configuration, no logic.

=== FILE: nullable.dfy ===
/** Kotlin's nullable references (`String?`) and the `isNullOrEmpty` test on them. */
module Nullable {

  /** A value that may be absent; `None` stands for Kotlin's `null`. */
  datatype Option<+T> = None | Some(value: T)

  /** Kotlin's `CharSequence?.isNullOrEmpty()`: true for `null` and for the empty string only.
      A string made of blanks is NOT empty. */
  predicate IsNullOrEmpty(s: Option<string>)
    ensures IsNullOrEmpty(s) <==> s == None || s == Some("")
  {
    s.None? || |s.value| == 0
  }
}

=== FILE: projector.dfy ===
/** The presentation-ready fields derived from one recipe: the shortened instructions shown
    on a result card and the list of ingredient slots worth listing. */
module Projector {
  import opened Nullable
  import opened Recipes

  /** Instructions longer than this many characters are cut on a result card. */
  const MaxInstructions := 200

  /** Marker appended to cut instructions. */
  const Ellipsis := "..."

  function Min(a: int, b: int): (m: int) {
    if a <= b then a else b
  }

  /** The instructions as shown on a result card. A text of at most 200 characters passes
      through unchanged; a longer one keeps its first 200 characters, cut by raw count and
      not at a word boundary, followed by the ellipsis, so it is exactly 203 long. Either
      way the result never exceeds 203 characters and starts with the first
      `min(|s|, 200)` characters of `s`. */
  function Truncate(s: string): (r: string)
    ensures |s| <= MaxInstructions ==> r == s
    ensures |s| > MaxInstructions ==> |r| == MaxInstructions + |Ellipsis| && r[MaxInstructions..] == Ellipsis
    ensures |r| <= MaxInstructions + |Ellipsis|
    ensures r[..Min(|s|, MaxInstructions)] == s[..Min(|s|, MaxInstructions)]
  {
    if |s| > MaxInstructions then s[..MaxInstructions] + Ellipsis else s
  }

  /** Cutting already-cut instructions changes nothing. */
  lemma TruncateIdempotent(s: string)
    ensures Truncate(Truncate(s)) == Truncate(s)
  {
    if |s| > MaxInstructions {
      var r := Truncate(s);
      assert r[..MaxInstructions] == s[..MaxInstructions];
      assert r == r[..MaxInstructions] + r[MaxInstructions..];
    }
  }

  /** A slot is listed when both its ingredient and its measure are non-null and non-empty. */
  predicate Keep(slot: Slot)
    ensures Keep(slot) <==>
              (slot.ingredient.Some? && slot.measure.Some?
               && |slot.ingredient.value| > 0 && |slot.measure.value| > 0)
  {
    !IsNullOrEmpty(slot.ingredient) && !IsNullOrEmpty(slot.measure)
  }

  /** `a` occurs in `b` in the same relative order, possibly with gaps. */
  predicate IsSubsequence<T(==)>(a: seq<T>, b: seq<T>)
    decreases |b|
  {
    if a == [] then true
    else if b == [] then false
    else if a[0] == b[0] then IsSubsequence(a[1..], b[1..])
    else IsSubsequence(a, b[1..])
  }

  /** The listed ingredient slots: the ordered subsequence of `slots` made of exactly the
      kept slots, each as often as it occurs in `slots`. */
  function Prune(slots: seq<Slot>): (r: seq<Slot>)
    ensures |r| <= |slots|
    ensures IsSubsequence(r, slots)
    ensures forall x :: x in r <==> x in slots && Keep(x)
    ensures forall x :: multiset(r)[x] == if Keep(x) then multiset(slots)[x] else 0
  {
    if slots == [] then []
    else
      var rest := Prune(slots[1..]);
      assert slots == [slots[0]] + slots[1..];
      if Keep(slots[0]) then [slots[0]] + rest else rest
  }

  /** Pruning a slot in front of a list decides that slot alone and prunes the rest. */
  lemma PruneCons(x: Slot, s: seq<Slot>)
    ensures Prune([x] + s) == if Keep(x) then [x] + Prune(s) else Prune(s)
  {
    assert ([x] + s)[1..] == s;
  }

  /** Pruning distributes over concatenation, so slots can be filtered one at a time. */
  lemma {:induction false} PruneAppend(a: seq<Slot>, b: seq<Slot>)
    ensures Prune(a + b) == Prune(a) + Prune(b)
    decreases |a|
  {
    if a == [] {
      assert a + b == b;
    } else {
      assert (a + b)[1..] == a[1..] + b;
      PruneAppend(a[1..], b);
    }
  }

  /** Pruning an already pruned list changes nothing. */
  lemma {:induction false} PruneIdempotent(slots: seq<Slot>)
    ensures Prune(Prune(slots)) == Prune(slots)
    decreases |slots|
  {
    if slots != [] {
      PruneIdempotent(slots[1..]);
    }
  }

  /** The filter as the list library runs it: walk the slots in order and append each kept
      one. It yields the same list as `Prune`. */
  method FilterValid(slots: seq<Slot>) returns (valid: seq<Slot>)
    ensures valid == Prune(slots)
  {
    valid := [];
    for i := 0 to |slots|
      invariant valid == Prune(slots[..i])
    {
      assert slots[..i + 1] == slots[..i] + [slots[i]];
      PruneAppend(slots[..i], [slots[i]]);
      PruneCons(slots[i], []);
      assert [slots[i]] + [] == [slots[i]];
      if Keep(slots[i]) {
        valid := valid + [slots[i]];
      }
    }
    assert slots[..|slots|] == slots;
  }

  /** A whitespace-only ingredient and measure is listed; a named ingredient whose measure is
      null or empty is not, and neither is a measure without an ingredient. */
  lemma PruneKeepsBlanksDropsHalfFilled(name: string, measure: string)
    ensures Prune([Slot(Some(name), None), Slot(Some(name), Some("")), Slot(Some(" "), Some(" ")),
                   Slot(None, Some(measure)), Slot(Some(""), Some(measure))])
         == [Slot(Some(" "), Some(" "))]
  {
    var blank := Slot(Some(" "), Some(" "));
    PruneCons(Slot(Some(""), Some(measure)), []);
    PruneCons(Slot(None, Some(measure)), [Slot(Some(""), Some(measure))]);
    PruneCons(blank, [Slot(None, Some(measure)), Slot(Some(""), Some(measure))]);
    PruneCons(Slot(Some(name), Some("")), [blank, Slot(None, Some(measure)), Slot(Some(""), Some(measure))]);
    PruneCons(Slot(Some(name), None),
              [Slot(Some(name), Some("")), blank, Slot(None, Some(measure)), Slot(Some(""), Some(measure))]);
  }

  /** A recipe as a result card derives it: the recipe itself, its shortened instructions
      and its listed ingredient slots. */
  datatype DisplayRecipe = DisplayRecipe(recipe: Recipe, instructions: string, ingredients: seq<Slot>)

  /** The card fields of one recipe. The instructions pass unchanged when at most 200
      characters long and are otherwise their first 200 characters and the ellipsis, so they
      are at most 203 characters; the listed ingredients are at most twenty, in slot order,
      and are exactly the recipe's kept slots, each as often as it occurs. */
  function Project(r: Recipe): (d: DisplayRecipe)
    ensures d.recipe == r
    ensures |r.instructions| <= MaxInstructions ==> d.instructions == r.instructions
    ensures |r.instructions| > MaxInstructions ==>
              d.instructions == r.instructions[..MaxInstructions] + Ellipsis
    ensures |d.instructions| <= MaxInstructions + |Ellipsis|
    ensures |d.instructions| >= Min(|r.instructions|, MaxInstructions)
    ensures d.instructions[..Min(|r.instructions|, MaxInstructions)]
         == r.instructions[..Min(|r.instructions|, MaxInstructions)]
    ensures |d.ingredients| <= SlotCount
    ensures IsSubsequence(d.ingredients, Slots(r))
    ensures forall x :: x in d.ingredients <==> x in Slots(r) && Keep(x)
    ensures forall x :: multiset(d.ingredients)[x] == if Keep(x) then multiset(Slots(r))[x] else 0
  {
    DisplayRecipe(r, Truncate(r.instructions), Prune(Slots(r)))
  }

  /** A list with no kept slot prunes to nothing. */
  lemma {:induction false} PruneNoneKept(s: seq<Slot>)
    requires forall k :: 0 <= k < |s| ==> !Keep(s[k])
    ensures Prune(s) == []
    decreases |s|
  {
    if s != [] {
      assert forall k :: 0 <= k < |s[1..]| ==> s[1..][k] == s[k + 1];
      PruneNoneKept(s[1..]);
    }
  }

  /** When only one slot of a list is kept, pruning leaves that slot alone. */
  lemma {:induction false} PruneSingleKept(ps: seq<Slot>, i: nat)
    requires i < |ps| && Keep(ps[i])
    requires forall k :: 0 <= k < |ps| && k != i ==> !Keep(ps[k])
    ensures Prune(ps) == [ps[i]]
    decreases i
  {
    var tail := ps[1..];
    assert forall k :: 0 <= k < |tail| ==> tail[k] == ps[k + 1];
    if i == 0 {
      PruneNoneKept(tail);
    } else {
      PruneSingleKept(tail, i - 1);
    }
  }

  /** A recipe whose third slot names an ingredient but has an empty measure, whose fifth
      slot is filled and whose other slots are not kept lists the fifth pair alone. */
  lemma ProjectKeepsOnlyFilledSlot(r: Recipe)
    requires r.ingredient3.Some? && |r.ingredient3.value| > 0 && r.measure3 == Some("")
    requires Keep(Slot(r.ingredient5, r.measure5))
    requires r.ingredient1.None? && r.ingredient2.None? && r.ingredient4.None?
    requires forall k :: 5 <= k < SlotCount ==> !Keep(Slots(r)[k])
    ensures Project(r).ingredients == [Slot(r.ingredient5, r.measure5)]
  {
    SlotsInFieldOrder(r);
    PruneSingleKept(Slots(r), 4);
  }
}

=== FILE: recipes.dfy ===
/** The data shapes the recipe search API answers with: one `Recipe` per meal, and the
    response envelope whose `meals` list may be absent. */
module Recipes {
  import opened Nullable

  /** Number of positional ingredient/measure slots a recipe carries. */
  const SlotCount := 20

  /** One meal as returned by the API. Ingredients come as twenty numbered, independently
      nullable `ingredientK`/`measureK` fields rather than as a list. */
  datatype Recipe = Recipe(
    id: string,
    name: string,
    category: string,
    area: string,
    instructions: string,
    thumbnail: string,
    youtube: Option<string>,
    ingredient1: Option<string>,
    ingredient2: Option<string>,
    ingredient3: Option<string>,
    ingredient4: Option<string>,
    ingredient5: Option<string>,
    ingredient6: Option<string>,
    ingredient7: Option<string>,
    ingredient8: Option<string>,
    ingredient9: Option<string>,
    ingredient10: Option<string>,
    ingredient11: Option<string>,
    ingredient12: Option<string>,
    ingredient13: Option<string>,
    ingredient14: Option<string>,
    ingredient15: Option<string>,
    ingredient16: Option<string>,
    ingredient17: Option<string>,
    ingredient18: Option<string>,
    ingredient19: Option<string>,
    ingredient20: Option<string>,
    measure1: Option<string>,
    measure2: Option<string>,
    measure3: Option<string>,
    measure4: Option<string>,
    measure5: Option<string>,
    measure6: Option<string>,
    measure7: Option<string>,
    measure8: Option<string>,
    measure9: Option<string>,
    measure10: Option<string>,
    measure11: Option<string>,
    measure12: Option<string>,
    measure13: Option<string>,
    measure14: Option<string>,
    measure15: Option<string>,
    measure16: Option<string>,
    measure17: Option<string>,
    measure18: Option<string>,
    measure19: Option<string>,
    measure20: Option<string>)

  /** The response body: `meals` is `null` when nothing matched. */
  datatype RecipeResponse = RecipeResponse(meals: Option<seq<Recipe>>)

  /** One positional (ingredient, measure) pair; either half may be null. */
  datatype Slot = Slot(ingredient: Option<string>, measure: Option<string>)

  /** The twenty positional fields, rebuilt as an ordered sequence of pairs: position `k`
      holds `(ingredientK+1, measureK+1)`. The `WithSlots` lemmas below show this loses
      nothing. */
  function Slots(r: Recipe): (ps: seq<Slot>)
    ensures |ps| == SlotCount
  {
    [
      Slot(r.ingredient1, r.measure1),
      Slot(r.ingredient2, r.measure2),
      Slot(r.ingredient3, r.measure3),
      Slot(r.ingredient4, r.measure4),
      Slot(r.ingredient5, r.measure5),
      Slot(r.ingredient6, r.measure6),
      Slot(r.ingredient7, r.measure7),
      Slot(r.ingredient8, r.measure8),
      Slot(r.ingredient9, r.measure9),
      Slot(r.ingredient10, r.measure10),
      Slot(r.ingredient11, r.measure11),
      Slot(r.ingredient12, r.measure12),
      Slot(r.ingredient13, r.measure13),
      Slot(r.ingredient14, r.measure14),
      Slot(r.ingredient15, r.measure15),
      Slot(r.ingredient16, r.measure16),
      Slot(r.ingredient17, r.measure17),
      Slot(r.ingredient18, r.measure18),
      Slot(r.ingredient19, r.measure19),
      Slot(r.ingredient20, r.measure20)
    ]
  }

  /** `r` with its twenty positional fields replaced by `ps`, in order; every other field is
      kept. */
  function WithSlots(r: Recipe, ps: seq<Slot>): (r': Recipe)
    requires |ps| == SlotCount
    ensures r'.id == r.id && r'.name == r.name && r'.category == r.category && r'.area == r.area
    ensures r'.instructions == r.instructions && r'.thumbnail == r.thumbnail && r'.youtube == r.youtube
  {
    r.(
      ingredient1 := ps[0].ingredient, measure1 := ps[0].measure,
      ingredient2 := ps[1].ingredient, measure2 := ps[1].measure,
      ingredient3 := ps[2].ingredient, measure3 := ps[2].measure,
      ingredient4 := ps[3].ingredient, measure4 := ps[3].measure,
      ingredient5 := ps[4].ingredient, measure5 := ps[4].measure,
      ingredient6 := ps[5].ingredient, measure6 := ps[5].measure,
      ingredient7 := ps[6].ingredient, measure7 := ps[6].measure,
      ingredient8 := ps[7].ingredient, measure8 := ps[7].measure,
      ingredient9 := ps[8].ingredient, measure9 := ps[8].measure,
      ingredient10 := ps[9].ingredient, measure10 := ps[9].measure,
      ingredient11 := ps[10].ingredient, measure11 := ps[10].measure,
      ingredient12 := ps[11].ingredient, measure12 := ps[11].measure,
      ingredient13 := ps[12].ingredient, measure13 := ps[12].measure,
      ingredient14 := ps[13].ingredient, measure14 := ps[13].measure,
      ingredient15 := ps[14].ingredient, measure15 := ps[14].measure,
      ingredient16 := ps[15].ingredient, measure16 := ps[15].measure,
      ingredient17 := ps[16].ingredient, measure17 := ps[16].measure,
      ingredient18 := ps[17].ingredient, measure18 := ps[17].measure,
      ingredient19 := ps[18].ingredient, measure19 := ps[18].measure,
      ingredient20 := ps[19].ingredient, measure20 := ps[19].measure)
  }

  /** The sequence runs in field order: position k holds the (k+1)-th ingredient/measure
      fields, from the first to the twentieth. */
  lemma SlotsInFieldOrder(r: Recipe)
    ensures Slots(r)[0] == Slot(r.ingredient1, r.measure1)
    ensures Slots(r)[1] == Slot(r.ingredient2, r.measure2)
    ensures Slots(r)[2] == Slot(r.ingredient3, r.measure3)
    ensures Slots(r)[3] == Slot(r.ingredient4, r.measure4)
    ensures Slots(r)[4] == Slot(r.ingredient5, r.measure5)
    ensures Slots(r)[5] == Slot(r.ingredient6, r.measure6)
    ensures Slots(r)[6] == Slot(r.ingredient7, r.measure7)
    ensures Slots(r)[7] == Slot(r.ingredient8, r.measure8)
    ensures Slots(r)[8] == Slot(r.ingredient9, r.measure9)
    ensures Slots(r)[9] == Slot(r.ingredient10, r.measure10)
    ensures Slots(r)[10] == Slot(r.ingredient11, r.measure11)
    ensures Slots(r)[11] == Slot(r.ingredient12, r.measure12)
    ensures Slots(r)[12] == Slot(r.ingredient13, r.measure13)
    ensures Slots(r)[13] == Slot(r.ingredient14, r.measure14)
    ensures Slots(r)[14] == Slot(r.ingredient15, r.measure15)
    ensures Slots(r)[15] == Slot(r.ingredient16, r.measure16)
    ensures Slots(r)[16] == Slot(r.ingredient17, r.measure17)
    ensures Slots(r)[17] == Slot(r.ingredient18, r.measure18)
    ensures Slots(r)[18] == Slot(r.ingredient19, r.measure19)
    ensures Slots(r)[SlotCount - 1] == Slot(r.ingredient20, r.measure20)
  {
  }

  /** Reading the slots back after writing them yields what was written. */
  lemma SlotsOfWithSlots(r: Recipe, ps: seq<Slot>)
    requires |ps| == SlotCount
    ensures Slots(WithSlots(r, ps)) == ps
  {
  }

  /** Writing back a recipe's own slots gives the same recipe: the sequence view is a
      faithful re-encoding of the forty positional fields. */
  lemma WithOwnSlots(r: Recipe)
    ensures WithSlots(r, Slots(r)) == r
  {
  }
}

=== FILE: search.dfy ===
/** One search as the main screen runs it: the query typed by the user is trimmed and
    checked, one request is answered by the server, and the answer is classified into what
    the screen shows. */
module Search {
  import opened Nullable
  import opened Text
  import opened Recipes
  import opened Projector

  /** What pressing the search button does with the typed text. */
  datatype Submission =
    | Issue(query: string)  // a search for `query` is started
    | RejectEmpty           // "Please enter a recipe name"; nothing is sent

  /** The search button: the typed text is trimmed, and a search starts only when something
      is left. A search is therefore started exactly when the text holds a non-whitespace
      character, and its query has neither leading nor trailing whitespace. */
  function Gate(raw: string): (g: Submission)
    ensures g.RejectEmpty? <==> IsBlank(raw)
    ensures g.Issue? ==> g.query == Trim(raw) && g.query != []
    ensures g.Issue? ==> !IsWhitespace(g.query[0]) && !IsWhitespace(g.query[|g.query| - 1])
  {
    var query := Trim(raw);
    if |query| != 0 then Issue(query) else RejectEmpty
  }

  /** Blank input, the empty string included, never reaches the network. */
  lemma BlankInputIsRejected(raw: string)
    requires forall k :: 0 <= k < |raw| ==> raw[k] == ' ' || raw[k] == '\t' || raw[k] == '\n'
    ensures Gate(raw) == RejectEmpty
  {
  }

  /** Submitting the query a search was started with starts the same search again. */
  lemma GateIdempotent(raw: string)
    requires Gate(raw).Issue?
    ensures Gate(Gate(raw).query) == Gate(raw)
  {
    TrimIdempotent(raw);
  }

  /** How the HTTP layer answers a request: either a response with a status code and a
      possibly absent, already parsed body, or a failure before any response arrived
      (unreachable host, timeout, unparseable body), with its possibly null message. */
  datatype Response =
    | HttpResponse(code: int, body: Option<RecipeResponse>)
    | TransportFailure(message: Option<string>)

  /** The HTTP layer's success test: a status code in 200..299. */
  predicate IsSuccessful(code: int)
    ensures IsSuccessful(code) <==> code / 100 == 2
  {
    200 <= code < 300
  }

  /** `response.body()?.meals`: null when the body or its `meals` is. */
  function MealsOf(body: Option<RecipeResponse>): (meals: Option<seq<Recipe>>)
    ensures meals.Some? <==> body.Some? && body.value.meals.Some?
    ensures meals.Some? ==> meals == body.value.meals
  {
    if body.None? then None else body.value.meals
  }

  /** The four ways a search can end. */
  datatype Outcome =
    | ShowRecipes(recipes: seq<Recipe>)   // a card per recipe
    | NoResults                           // "No recipes found. Try a different search term."
    | FetchFailed                         // "Failed to fetch recipes"
    | NetworkError(message: Option<string>) // "Network error: <message>"

  /** A successful response carrying at least one meal. */
  predicate HasMeals(resp: Response) {
    resp.HttpResponse? && IsSuccessful(resp.code) && MealsOf(resp.body).Some?
    && |MealsOf(resp.body).value| > 0
  }

  /** A successful response whose meals are null (or whose body is) or an empty list. */
  predicate IsEmptySuccess(resp: Response) {
    resp.HttpResponse? && IsSuccessful(resp.code)
    && (MealsOf(resp.body).None? || |MealsOf(resp.body).value| == 0)
  }

  /** The four conditions on a response that the outcomes stand for partition all
      responses: each response meets exactly one of them. */
  lemma ResponseConditionsPartition(resp: Response)
    ensures HasMeals(resp) || IsEmptySuccess(resp)
         || (resp.HttpResponse? && !IsSuccessful(resp.code)) || resp.TransportFailure?
    ensures !(HasMeals(resp) && IsEmptySuccess(resp))
    ensures (HasMeals(resp) || IsEmptySuccess(resp)) ==> resp.HttpResponse? && IsSuccessful(resp.code)
  {
  }

  /** The two callbacks of a search, merged: each response ends in exactly the outcome its
      condition names. Recipes are shown only when there is at least one, in the order the
      server sent them; null and empty meal lists are "no results" and not an error; any
      other status is a failed fetch, whatever its body; a transport failure is a network
      error carrying its message. */
  function Classify(resp: Response): (o: Outcome)
    ensures o.ShowRecipes? <==> HasMeals(resp)
    ensures o.ShowRecipes? ==> o.recipes == MealsOf(resp.body).value && |o.recipes| > 0
    ensures o.NoResults? <==> IsEmptySuccess(resp)
    ensures o.FetchFailed? <==> resp.HttpResponse? && !IsSuccessful(resp.code)
    ensures o.NetworkError? <==> resp.TransportFailure?
    ensures o.NetworkError? ==> o.message == resp.message
  {
    match resp
    case HttpResponse(code, body) =>
      if IsSuccessful(code) then
        var recipes := MealsOf(body);
        if recipes.Some? && |recipes.value| > 0 then ShowRecipes(recipes.value) else NoResults
      else FetchFailed
    case TransportFailure(message) => NetworkError(message)
  }

  /** A successful response with a null body, with `meals: null` and with `meals: []` all
      end as "no results", and none as an error or as a list of zero cards. */
  lemma NullAndEmptyMealsAreNoResults(code: int)
    requires IsSuccessful(code)
    ensures Classify(HttpResponse(code, None)) == NoResults
    ensures Classify(HttpResponse(code, Some(RecipeResponse(None)))) == NoResults
    ensures Classify(HttpResponse(code, Some(RecipeResponse(Some([]))))) == NoResults
  {
  }

  /** The cards of a result list: one per recipe, in list order. */
  function Render(meals: seq<Recipe>): (cards: seq<DisplayRecipe>)
    ensures |cards| == |meals|
    ensures forall k :: 0 <= k < |meals| ==> cards[k] == Project(meals[k])
    decreases |meals|
  {
    if meals == [] then []
    else
      var rest := Render(meals[1..]);
      ConsImages(Project, meals, rest);
      [Project(meals[0])] + rest
  }

  /** Putting the image of the first element in front of the images of the others, in
      order, gives the images of all elements in order. */
  lemma ConsImages<A, B>(f: A -> B, xs: seq<A>, rest: seq<B>)
    requires |xs| > 0 && |rest| == |xs| - 1
    requires forall k :: 0 <= k < |rest| ==> rest[k] == f(xs[1..][k])
    ensures forall k :: 0 <= k < |xs| ==> ([f(xs[0])] + rest)[k] == f(xs[k])
  {
    forall k | 1 <= k < |xs|
      ensures ([f(xs[0])] + rest)[k] == f(xs[k])
    {
      assert xs[1..][k - 1] == xs[k];
    }
  }

  /** The recipes behind a list of cards, in card order. */
  function RecipesOf(cards: seq<DisplayRecipe>): (rs: seq<Recipe>) {
    seq(|cards|, k requires 0 <= k < |cards| => cards[k].recipe)
  }

  /** Cards correspond one to one with the meals, in the same order: reading the recipes
      back off the cards gives the meal list itself, nothing reordered, dropped or
      duplicated. */
  lemma RenderIsOneToOne(meals: seq<Recipe>)
    ensures RecipesOf(Render(meals)) == meals
  {
  }

  /** The result list as the screen fills it: cleared, then one card appended per recipe
      in list order. */
  method DisplayRecipes(meals: seq<Recipe>) returns (container: seq<DisplayRecipe>)
    ensures |container| == |meals|
    ensures forall k :: 0 <= k < |meals| ==> container[k].recipe == meals[k]
    ensures container == Render(meals)
  {
    container := [];
    for i := 0 to |meals|
      invariant |container| == i
      invariant forall k :: 0 <= k < i ==> container[k] == Project(meals[k])
    {
      container := container + [Project(meals[i])];
    }
  }

  /** A press of the search button, end to end. */
  datatype Attempt =
    | Rejected                                 // blank input, no request
    | Completed(query: string, outcome: Outcome)

  /** A whole search. The server is a parameter: whatever it answers to the query it is
      asked. Blank input is rejected with no request; otherwise the server is asked for the
      trimmed query and its answer classified. */
  function Submit(raw: string, server: string -> Response): (a: Attempt)
    ensures a.Rejected? <==> IsBlank(raw)
    ensures a.Completed? ==> a.query == Trim(raw) && a.query != []
    ensures a.Completed? ==> a.outcome == Classify(server(a.query))
  {
    match Gate(raw)
    case RejectEmpty => Rejected
    case Issue(query) => Completed(query, Classify(server(query)))
  }

  /** The cards on screen after a press, given the cards `shown` before it. A rejected press
      never reaches `searchRecipes`, so nothing is cleared and the previous cards stay. A
      started search first clears the container; if it shows recipes it then holds one card
      per recipe, card k being recipe k projected, and otherwise no card at all. */
  function CardsAfter(shown: seq<DisplayRecipe>, a: Attempt): (cards: seq<DisplayRecipe>)
    ensures a.Rejected? ==> cards == shown
    ensures a.Completed? && a.outcome.ShowRecipes? ==>
              |cards| == |a.outcome.recipes|
              && (forall k :: 0 <= k < |cards| ==> cards[k] == Project(a.outcome.recipes[k]))
              && RecipesOf(cards) == a.outcome.recipes
    ensures a.Completed? && !a.outcome.ShowRecipes? ==> cards == []
  {
    match a
    case Rejected => shown
    case Completed(_, outcome) =>
      if outcome.ShowRecipes? then
        RenderIsOneToOne(outcome.recipes);
        Render(outcome.recipes)
      else []
  }

  /** Typing " pasta " against a server that answers that query with two meals completes a
      search for "pasta" that shows both meals, as two cards in the server's order. */
  lemma PastaScenario(m1: Recipe, m2: Recipe, server: string -> Response)
    requires server("pasta") == HttpResponse(200, Some(RecipeResponse(Some([m1, m2]))))
    ensures Submit(" pasta ", server) == Completed("pasta", ShowRecipes([m1, m2]))
    ensures forall shown :: RecipesOf(CardsAfter(shown, Submit(" pasta ", server))) == [m1, m2]
  {
    PastaSubmit(m1, m2, server);
  }

  /** The press of the scenario: the query sent is "pasta" and the answer shows both meals. */
  lemma PastaSubmit(m1: Recipe, m2: Recipe, server: string -> Response)
    requires server("pasta") == HttpResponse(200, Some(RecipeResponse(Some([m1, m2]))))
    ensures Submit(" pasta ", server) == Completed("pasta", ShowRecipes([m1, m2]))
  {
    GatePasta();
    assert Classify(server("pasta")) == ShowRecipes([m1, m2]);
  }

  /** The button accepts `" pasta "` and starts a search for `"pasta"`. */
  lemma GatePasta()
    ensures Gate(" pasta ") == Issue("pasta")
  {
    TrimPasta();
  }

  /** The query of the scenario: trimming `" pasta "` drops one blank on each side. */
  lemma TrimPasta()
    ensures Trim(" pasta ") == "pasta"
  {
    TrimStartPasta();
    TrimEndPasta();
  }

  /** The leading scan of `" pasta "` drops its one leading blank. */
  lemma TrimStartPasta()
    ensures TrimStart(" pasta ") == "pasta "
  {
    assert " pasta "[1..] == "pasta ";
    assert !IsWhitespace('p');
  }

  /** The trailing scan of `"pasta "` drops its one trailing blank. */
  lemma TrimEndPasta()
    ensures TrimEnd("pasta ") == "pasta"
  {
    assert "pasta "[..5] == "pasta";
    assert !IsWhitespace('a');
  }
}

=== FILE: text.dfy ===
/** Kotlin's `String.trim()`: drop leading and trailing whitespace, where "whitespace" is
    `Char.isWhitespace()` on the JVM. */
module Text {

  /** `Char.isWhitespace()` on the JVM: Java's `Character.isWhitespace` or
      `Character.isSpaceChar`, i.e. the ASCII controls TAB, LF, VT, FF, CR, the separators
      U+001C..U+001F, and every Unicode space, line or paragraph separator
      (non-breaking spaces included). */
  predicate IsWhitespace(c: char) {
    || c == ' ' || c == '\t' || c == '\n' || c == '\U{000B}' || c == '\U{000C}' || c == '\r'
    || ('\U{001C}' <= c <= '\U{001F}')
    || c == '\U{00A0}' || c == '\U{1680}'
    || ('\U{2000}' <= c <= '\U{200A}')
    || c == '\U{2028}' || c == '\U{2029}' || c == '\U{202F}' || c == '\U{205F}' || c == '\U{3000}'
  }

  /** What the whitespace set holds in familiar terms: the ASCII blanks and the non-breaking
      space are in it, no ASCII letter or digit is, and nothing above U+3000 is. */
  lemma WhitespaceBounds(c: char)
    ensures c == ' ' || c == '\t' || c == '\n' || c == '\r' || c == '\U{00A0}' ==> IsWhitespace(c)
    ensures ('0' <= c <= '9') || ('A' <= c <= 'Z') || ('a' <= c <= 'z') ==> !IsWhitespace(c)
    ensures IsWhitespace(c) ==> c <= '\U{3000}'
  {
  }

  /** Every character of `s` is whitespace (the empty string included). */
  predicate IsBlank(s: string) {
    forall k :: 0 <= k < |s| ==> IsWhitespace(s[k])
  }

  /** Drops the leading whitespace of `s`: what is left is a suffix of `s` that is empty or
      starts with a non-whitespace character, and everything dropped was whitespace. */
  function TrimStart(s: string): (r: string)
    ensures |r| <= |s| && r == s[|s| - |r|..]
    ensures IsBlank(s[..|s| - |r|])
    ensures r == [] || !IsWhitespace(r[0])
    decreases |s|
  {
    if |s| > 0 && IsWhitespace(s[0]) then
      var r := TrimStart(s[1..]);
      var cut := |s| - |r|;
      assert s[1..][..cut - 1] == s[1..cut];
      assert forall k :: 0 <= k < cut ==> s[k] == if k == 0 then s[0] else s[1..cut][k - 1];
      r
    else s
  }

  /** Drops the trailing whitespace of `s`: what is left is a prefix of `s` that is empty or
      ends with a non-whitespace character, and everything dropped was whitespace. */
  function TrimEnd(s: string): (r: string)
    ensures |r| <= |s| && r == s[..|r|]
    ensures IsBlank(s[|r|..])
    ensures r == [] || !IsWhitespace(r[|r| - 1])
    decreases |s|
  {
    if |s| > 0 && IsWhitespace(s[|s| - 1]) then
      var r := TrimEnd(s[..|s| - 1]);
      assert s[..|s| - 1][|r|..] == s[|r|..|s| - 1];
      assert forall k :: |r| <= k < |s| ==> s[k] == if k == |s| - 1 then s[|s| - 1] else s[|r|..|s| - 1][k - |r|];
      r
    else s
  }

  /** `String.trim()`: the slice `s[i..j]` left after removing all leading and trailing
      whitespace. It is empty exactly when `s` is blank, and otherwise it begins and ends
      with a non-whitespace character. */
  function Trim(s: string): (r: string)
    ensures exists i, j :: 0 <= i <= j <= |s| && r == s[i..j] && IsBlank(s[..i]) && IsBlank(s[j..])
    ensures r == [] <==> IsBlank(s)
    ensures r == [] || (!IsWhitespace(r[0]) && !IsWhitespace(r[|r| - 1]))
  {
    var t := TrimStart(s);
    var r := TrimEnd(t);
    BothEndsCut(s, t, r);
    r
  }

  /** Whatever cuts satisfy the contracts of the two scans, the leading one keeping the
      suffix `t` of `s` and the trailing one the prefix `r` of `t`, leave a slice of `s`
      with blank borders that is empty exactly when `s` is blank. */
  lemma BothEndsCut(s: string, t: string, r: string)
    requires |t| <= |s| && t == s[|s| - |t|..] && IsBlank(s[..|s| - |t|])
    requires t == [] || !IsWhitespace(t[0])
    requires |r| <= |t| && r == t[..|r|] && IsBlank(t[|r|..])
    requires r == [] || !IsWhitespace(r[|r| - 1])
    ensures exists i, j :: 0 <= i <= j <= |s| && r == s[i..j] && IsBlank(s[..i]) && IsBlank(s[j..])
    ensures r == [] <==> IsBlank(s)
    ensures r == [] || (!IsWhitespace(r[0]) && !IsWhitespace(r[|r| - 1]))
  {
    var i := |s| - |t|;
    SliceOfSuffix(s, i, t, r);
    assert r == s[i..i + |r|] && IsBlank(s[..i]) && IsBlank(s[i + |r|..]);
    if r == [] {
      assert t[0..] == t;
      BlankJoin(s, i);
    } else {
      assert r[0] == t[0] == s[i];
    }
  }

  /** A prefix `r` of the suffix `t == s[i..]` is the slice of `s` that starts at `i`, and
      what follows it in `t` is what follows it in `s`. */
  lemma SliceOfSuffix(s: string, i: nat, t: string, r: string)
    requires i <= |s| && t == s[i..]
    requires |r| <= |t| && r == t[..|r|] && IsBlank(t[|r|..])
    ensures r == s[i..i + |r|] && IsBlank(s[i + |r|..])
  {
    assert s[i..][..|r|] == s[i..i + |r|];
    assert s[i..][|r|..] == s[i + |r|..];
  }

  /** A string whose two sides of some cut are blank is blank. */
  lemma BlankJoin(s: string, i: nat)
    requires i <= |s| && IsBlank(s[..i]) && IsBlank(s[i..])
    ensures IsBlank(s)
  {
    forall k | 0 <= k < |s|
      ensures IsWhitespace(s[k])
    {
      if k < i {
        assert s[k] == s[..i][k];
      } else {
        assert s[k] == s[i..][k - i];
      }
    }
  }

  /** Trimming a trimmed string changes nothing. */
  lemma {:induction false} TrimIdempotent(s: string)
    ensures Trim(Trim(s)) == Trim(s)
  {
    var r := Trim(s);
    if r != [] {
      assert TrimStart(r) == r;
      assert TrimEnd(r) == r;
    }
  }
}
